=== FILE: README.md ===
# MicroTix front-end rules, modelled in Dafny

MicroTix is a lead-generation front end for business-loan brokers. The code
behind its screens holds a set of small, deterministic rules, and this project
models them as pure functions over immutable datatypes:

- the four-step **search wizard**: per-step validity, Back/Next, the job-quota
  gate on submit and the reset after a started search;
- the **lead pipeline**: a status change applied to every copy of a lead, the
  three Kanban columns and the tag chips on a card;
- the **trial banner**: the hours/minutes countdown and when the banner shows;
- the **deal engine's prospect finder**: priority from rating, mapping of the
  first ten Places results, the search type, the input guard, the fallback to
  sample prospects, the income projection and the deal-amount field;
- the **lookup tables** and sample prospects;
- the **auth hook**: which subscription a signed-in user receives;
- the **dashboard**: spinner/pricing/workspace, the New Search gate, the tier
  badge and the session's job list.

The amount fields read their text with JavaScript's `parseInt`, so
`NumericInput` models `parseInt` with radix 10. The model proves that reading
back a rendered integer returns that integer, and that text without digits
reads as NaN, which becomes 0.

Modules: `Common` (option values, string truthiness), `NumericInput`,
`Subscriptions` (the subscription record), `Auth`, `Wizard`, `LeadsPipeline`,
`TrialBanner`, `Catalog`, `ProspectFinder`, `Dashboard`.

Parameters stand in for everything outside the code. The backend's answer to
a start-search request is `Wizard.StartOutcome`, and its answer to a lead
update is `LeadsPipeline.UpdateOutcome`. As written, the components call
`api.startSearch` and `api.updateLead`, but `src/services/api.ts` defines only
`startLeadGeneration` and `updateLeadStage`. So in the code every submit takes
`StartFailed` and every status change takes `UpdateFailed`. The success branches
model the backend the components evidently intend. The Firebase ID-token lookup is
`Auth.TokenResult`. The Places response is `ProspectFinder.PlacesReply`, and
the random need choice is a `draw` function. The current time is a `now`
argument in epoch milliseconds.

Two behaviours follow from the code rather than from any stated design:

- A `trialEndsAt` string that does not parse as a date keeps the banner
  visible, because NaN compares false. The countdown then reads "Expired"
  (`TrialBanner.VisibleBannerCountsDown`).
- The lead component uses the statuses searching/returned/emailed, while the
  declared `Lead` type lists new/contacted/qualified/disqualified/won. The
  model follows the component. Any other status is kept as `OtherStatus` and
  appears in no column.

## Model

| member | source | states |
|---|---|---|
| NumericInput.ParseIntOfIntString | src/components/SearchWizard.tsx:203 | `parseInt` reads back any rendered integer exactly, whatever non-digit text follows it |
| NumericInput.NonNumericAmountIsZero | src/components/SearchWizard.tsx:201-204 | an amount typed without any digit is NaN, and the fallback to 0 applies |
| NumericInput.AmountRoundTrip | src/components/SearchWizard.tsx:216-219 | typing the decimal form of a number into an amount field stores that number |
| Auth.AdminFallbackSubscription | src/hooks/useAuth.ts:15-33 | admin subscription: active, premium, admin, limits 1000/1000, features ["admin"], zero usage, e-mail or "" |
| Auth.LocalBasicSubscription | src/hooks/useAuth.ts:35-53 | basic subscription: active, pro, not admin, 100 leads per search, 5 jobs, no features, zero usage, e-mail or "" |
| Auth.SelectSubscription | src/hooks/useAuth.ts:89-96 | the admin subscription is chosen exactly when the claim is the boolean true; any other claim or a failed lookup gives the basic one |
| Auth.OnAuthStateChanged | src/hooks/useAuth.ts:86-106 | after an auth change loading is off and there is no error; a subscription exists iff a user is signed in, and it is the one the token's claims select; signed out leaves user and subscription empty |
| Auth.RefreshSubscription | src/hooks/useAuth.ts:70-83 | with no user nothing changes; otherwise only the subscription is re-selected and the error cleared |
| Auth.ProvisionedSubscriptionHasCapacity | src/hooks/useAuth.ts:15-53 | a just-provisioned subscription is active, has no trial and is below its job limit |
| Auth.RefreshAfterSignInIsIdentity | src/hooks/useAuth.ts:70-96 | refreshing right after sign-in with the same claims leaves the state as sign-in set it |
| Auth.LastRefreshWins | src/hooks/useAuth.ts:70-83 | two refreshes in a row leave the state the later refresh alone would produce |
| Auth.ProvisionedSubscriptionsShareAccountFields | src/hooks/useAuth.ts:15-53 | the admin and basic subscriptions differ only in tier, limits and the admin flag |
| Wizard.ApplyEdit | src/components/SearchWizard.tsx:95-218 | each control stores the chosen value, or the typed text parsed by `parseInt` with NaN replaced by 0, in its own field and keeps every other field |
| Wizard.EditField | src/components/SearchWizard.tsx:81-236 | a control on the screen on display applies its edit; one from another step changes nothing; the step and the validity of other steps are kept |
| Wizard.LastEditWins | src/components/SearchWizard.tsx:95-218 | using the same control twice leaves only the later value |
| Wizard.EditsOnDifferentFieldsCommute | src/components/SearchWizard.tsx:95-218 | controls writing different fields give the same form in either order |
| Wizard.Back | src/components/SearchWizard.tsx:270-272 | Back goes one step down and never below step 1; the form is untouched |
| Wizard.Next | src/components/SearchWizard.tsx:278-286 | Next advances by exactly one iff below step 4 and the current step is valid; the step stays within 1..4 |
| Wizard.HandleSubmit | src/components/SearchWizard.tsx:53-79 | at the job limit nothing is sent and nothing changes; otherwise the form is sent; a started job resets to step 1 and the initial form; a failure keeps step and form and raises the start-failed alert |
| Wizard.InitialWizardReachable | src/components/SearchWizard.tsx:33-48 | the initial wizard is a reachable state, and its default 10000..50000 range passes step 4 |
| Wizard.DispatchKeepsReachable | src/components/SearchWizard.tsx:43-51 | every input, Back, Next and submit keeps the step in 1..4, the funding type as a button set it, and every earlier step valid |
| Wizard.SubmittedRequestIsComplete | src/components/SearchWizard.tsx:288-290 | a request leaving a reachable wizard through the enabled button has industry, city, state, funding type, and 0 < min < max |
| Wizard.NonNumericMinimumBlocksStep4 | src/components/SearchWizard.tsx:198-207 | a minimum typed without digits becomes 0, and step 4 then refuses to proceed |
| LeadsPipeline.SetStatus | src/components/LeadsPipeline.tsx:46-48 | in one job's list, exactly the leads with the given id get the new status; the length and every other lead are kept |
| LeadsPipeline.UpdateBoard | src/components/LeadsPipeline.tsx:43-50 | the job keys, their order and each list's length are kept; only leads with the id change, and only in status |
| LeadsPipeline.HandleStatusChange | src/components/LeadsPipeline.tsx:38-55 | a failed backend update leaves the lead table unchanged; a successful one applies the status change |
| LeadsPipeline.LastStatusChangeWins | src/components/LeadsPipeline.tsx:43-50 | two status changes to one lead equal the later change alone |
| LeadsPipeline.StatusChangeIdempotent | src/components/LeadsPipeline.tsx:46-48 | the same status change applied twice equals applying it once |
| LeadsPipeline.StatusFromName | src/components/LeadsPipeline.tsx:57-59 | "searching", "returned" and "emailed" denote the three column statuses, each exactly for its own name; any other string is kept as an other status that is never one of those names |
| LeadsPipeline.StatusNameRoundTrip | src/components/LeadsPipeline.tsx:57-59 | reading a status string and writing it back gives the same string |
| LeadsPipeline.StatusEqualityMatchesNames | src/components/LeadsPipeline.tsx:58 | on read statuses, status equality is exactly the string comparison `lead.status === status` |
| LeadsPipeline.Filter | src/components/LeadsPipeline.tsx:57-59 | a column holds each lead of that status as many times as the table does, and no other lead |
| LeadsPipeline.Unlisted | src/components/LeadsPipeline.tsx:136-137 | the leads no column shows are exactly those whose status is none of the three |
| LeadsPipeline.LeadsByStatusJobOrder | src/components/LeadsPipeline.tsx:57-59 | a column lists earlier jobs' leads before later jobs' leads |
| LeadsPipeline.ColumnsPartitionLeads | src/components/LeadsPipeline.tsx:77-81 | the three columns and the unlisted leads together are exactly all the leads, counted with multiplicity |
| LeadsPipeline.LeadInExactlyOneColumn | src/components/LeadsPipeline.tsx:136-137 | a lead with a column status appears in its own column and in no other |
| LeadsPipeline.ChangedLeadMovesToColumn | src/components/LeadsPipeline.tsx:43-59 | after a status change every copy of the lead has the new status, so it sits in that column |
| LeadsPipeline.TagChips | src/components/LeadsPipeline.tsx:186-198 | the first two tags (all of them when there are at most two) are shown; a "+n more" marker appears iff there are more than two, with n the count minus two |
| LeadsPipeline.TagChipsRebuildTags | src/components/LeadsPipeline.tsx:186-198 | the shown tags followed by the hidden ones rebuild the list, and the marker counts exactly the hidden ones |
| TrialBanner.Countdown | src/components/TrialBanner.tsx:19-27 | "Expired" iff the trial end is not after now; otherwise minutes are below 60 and hours and minutes bracket the remaining time to the minute |
| TrialBanner.CountdownUnique | src/components/TrialBanner.tsx:22-23 | the countdown is the only hours/minutes split that brackets the remaining time this way |
| TrialBanner.BannerCountdown | src/components/TrialBanner.tsx:13-28 | without a trial the countdown never runs; an unparseable date counts as expired; a real date gives the countdown |
| TrialBanner.CountdownLabelReadsBack | src/components/TrialBanner.tsx:22-24 | the "{h}h {m}m" label reads back as the hours, the text after "h " reads back as the minutes, and it ends in "m" |
| TrialBanner.VisibleBannerCountsDown | src/components/TrialBanner.tsx:45-47 | a visible banner over a real date never shows "Expired", and over an unparseable date it always does |
| Catalog.CatalogConsistent | src/constants.ts:19-54 | every industry has four equipment types and a search type with a non-empty needs list; both tables cover exactly the industries |
| Catalog.FirstWord | src/constants.ts:58 | the first space-separated word is a prefix of the text, has no space, and ends at the text's end or at a space |
| Catalog.FallbackProspects | src/constants.ts:57-63 | five prospects, each of the given industry in "{city} area", priorities High, Medium, High, Medium, Low, names embedding the first industry word or the city |
| Catalog.SamplesDifferOnlyInPlace | src/constants.ts:57-63 | samples for any two searches agree on every prospect's need, priority and rating |
| ProspectFinder.PriorityFor | src/App.tsx:76-78 | High iff the rating is present, non-zero and below 3.5; Low iff present, non-zero and above 4.5; Medium otherwise |
| ProspectFinder.PriorityFallsWithRating | src/App.tsx:76-78 | among rated places, a better rating never gives a higher priority |
| ProspectFinder.SearchTypeFor | src/App.tsx:53 | a listed industry maps to its place type, which has suggested needs; an unmapped one gives "establishment" |
| ProspectFinder.NeedsFor | src/App.tsx:73 | a known search type gives its listed needs, an unknown one gives ["Equipment financing"]; the list is never empty |
| ProspectFinder.LiveProspectsSuggestListedNeeds | src/App.tsx:72-80 | for a listed industry every live prospect's need is one of that industry's search type's needs |
| ProspectFinder.MapPlaces | src/App.tsx:72-88 | at most ten prospects, in result order, of the chosen industry, with priority by rating and a need from the list; a present name, address and non-zero rating are kept, otherwise "Unnamed Business", "Address not available" and "N/A" |
| ProspectFinder.MapPlacesIgnoresLaterResults | src/App.tsx:72 | results after the tenth have no effect on the prospect list |
| ProspectFinder.GenerateProspects | src/App.tsx:37-99 | an empty city or industry reports an error, hides results and fetches nothing; otherwise 1..10 prospects of that industry are shown: without an error they are the mapped Places results, with one the samples; an unusable key reports the key error, an empty OK reply the no-results error, anything else a Places failure |
| ProspectFinder.RunForgetsPreviousResults | src/App.tsx:37-99 | with both inputs present, what a run shows does not depend on what was shown before |
| ProspectFinder.IncomeWithinSliderRange | src/App.tsx:160-185 | over the sliders' ranges (5..100 deals, 700..2450 per deal) monthly income lies in 3500..245000 and yearly in 42000..2940000 |
| ProspectFinder.IncomeGrowsWithSliders | src/App.tsx:24-25 | moving either slider up never lowers the monthly or yearly income |
| ProspectFinder.ChangeIndustry | src/App.tsx:113-116 | picking an industry sets it, clears the chosen equipment type and keeps the deal amount |
| ProspectFinder.ChangeIndustryKeepsSelectionOffered | src/App.tsx:113-116 | after an industry change the chosen equipment type is empty or one the select offers for the new industry, whatever was chosen before |
| ProspectFinder.EquipmentSelectFollowsIndustries | src/App.tsx:344-350 | the equipment select is enabled exactly for the listed industries and then offers four types; disabled, it offers none |
| ProspectFinder.DealAmountRoundTrip | src/App.tsx:118-120 | typing the decimal form of an amount into the deal field stores that amount |
| ProspectFinder.DealAmountWithoutDigitsIsZero | src/App.tsx:118-120 | text without a digit is NaN and the deal field stores 0 |
| Dashboard.Capitalize | src/pages/DashboardPage.tsx:80 | the label has the tier's length, its first character upper-cased and the rest unchanged |
| Dashboard.CapitalizeIdempotent | src/pages/DashboardPage.tsx:80 | capitalizing a capitalized label changes nothing |
| Dashboard.TierLabels | src/pages/DashboardPage.tsx:80 | the badges read "Starter", "Pro" and "Premium" |
| Dashboard.PageView | src/pages/DashboardPage.tsx:39-80 | spinner iff the subscription is pending; pricing iff loaded, inactive and without a trial; otherwise banner iff a trial, New Search iff below the job limit |
| Dashboard.OpenWizard | src/pages/DashboardPage.tsx:113-115 | New Search opens the wizard iff the job limit is not reached; the job list is untouched |
| Dashboard.HandleJobCreated | src/pages/DashboardPage.tsx:23-28 | a created job is appended at the end, earlier jobs keep their order, and the wizard closes |
| Dashboard.OpenWizardIdempotent | src/pages/DashboardPage.tsx:113-115 | pressing New Search a second time changes nothing more |
| Dashboard.JobsKeepCreationOrder | src/pages/DashboardPage.tsx:23-28 | two jobs created in turn are listed after the earlier ones, in creation order |
| Dashboard.NewSearchGateMatchesSubmitGate | src/pages/DashboardPage.tsx:115 | New Search is enabled exactly when a wizard submit would reach the backend |
| Dashboard.SignedInUserSeesWorkspace | src/pages/DashboardPage.tsx:39-80 | a just-signed-in user sees the workspace with no banner, New Search enabled, and "Premium" or "Pro" |
| Dashboard.InitialStateShowsSpinner | src/hooks/useAuth.ts:63-68 | before Firebase first reports a user, the hook's initial state has no subscription and the page shows the spinner |
| Dashboard.SignedOutShowsSpinner | src/pages/DashboardPage.tsx:39-45 | signed out, the subscription is pending and the page shows the spinner |

## Left out

- Network and backend calls: `src/services/api.ts`, `api.startSearch`, `api.updateLead` and the Places `fetch`. Each is an outcome parameter, and the URL, headers and JSON parsing are not modelled.
- Firebase sign-in, registration, sign-out and password reset, and `scripts/setAdmin.cjs`. These are foreign services. They reach the model only through the user that `Auth.OnAuthStateChanged` receives. The hook's `login`, `register` and `resetPassword` clear `error` and write a failure message into it (src/hooks/useAuth.ts:110-148); those error writes are not modelled.
- Job polling (`setInterval`, `getJobStatus`, `getJobResults`), the minute timer of the countdown, and `localStorage` persistence of the job list. These are timers and storage; the current time is a parameter.
- The lead normaliser, equipment-text extractor and response mapper. No core file contains them.
- The loan payment amortisation and the 7% commission (src/App.tsx:101-108, 409). These are floating point; only the deal-amount field feeding them is modelled.
- ProspectFinder.PriorityFor: ratings are integer tenths of a star, so ratings with finer precision are not modelled.
- ProspectFinder.IncomeFor: NaN from an empty slider value is not modelled, because range inputs always hold a number.
- NumericInput.ParseIntOfIntString: `parseInt` is modelled for radix 10 only. The "0x" prefix that a call without a radix accepts is not modelled, since number inputs hold decimal text. Precision loss beyond 2^53 is not modelled either.
- Dashboard.Capitalize: upper-casing is modelled for ASCII letters only; tier names are ASCII.
- JavaScript object key order: the job table is modelled as an ordered list of jobs. Integer-like job ids, which JavaScript would move to the front, are not modelled.
- Object-prototype keys in the industry lookup, such as "constructor". The industry comes from a fixed select list.
- The in-flight window of a wizard submit (`isSubmitting` true while the request is pending). A submit is one step from request to outcome.
- The in-flight window of a prospect search (src/App.tsx:49-51, 269). While the Places request is pending, the code sets `isLoading`, clears the error, empties the prospect list and disables the Find Prospects button. `ProspectFinder.GenerateProspects` is one step from press to outcome, so `FinderState.loading` is never true after a modelled step.
- ProspectFinder.DealAmountFromInput: JavaScript's negative zero is not modelled. For "-0" the code's `isNaN(v) ? 0 : v` stores -0, while the wizard's `|| 0` would store +0, and the field would display "$-0". The model's integers have a single zero.
- Interleavings across the auth hook's awaits (src/hooks/useAuth.ts:70-97). The auth callback and each refresh are single steps, so a sign-out that lands while `getIdTokenResult(true)` is pending is not modelled. In the code such a late write can leave a subscription with no user, or restore the user just signed out. The "subscription iff user" property holds only for the atomic steps.
- Alert and error texts. Each becomes a constructor (`Wizard.SubmitAlert`, `ProspectFinder.FinderError`), and the interpolated message is not modelled.
- The wizard's option lists of industries and states. An edit accepts any string; the select only limits which strings arrive.
- Presentational files: the landing, auth, admin and pricing pages, the icons and the spinner.

=== FILE: auth.dfy ===
/**
 The authentication hook: which subscription a signed-in user gets, and the
 hook's state after sign-in, sign-out and an explicit refresh. Firebase itself
 (sign-in, registration, the ID-token round trip) is outside the model; the
 token lookup is a parameter.
 */
module Auth {
  import opened Common
  import opened Subscriptions

  datatype User = User(uid: string, email: Option<string>)

  /** The value of the `isAdmin` custom claim on the ID token, whatever its type. */
  datatype ClaimValue = ClaimMissing | BoolClaim(b: bool) | StringClaim(s: string) | NumberClaim(n: int)

  /** Outcome of asking Firebase for the ID token's claims. */
  datatype TokenResult = TokenFailed | TokenClaims(isAdmin: ClaimValue)

  datatype AuthState = AuthState(
    user: Option<User>,
    subscription: Option<Subscription>,
    loading: bool,
    error: Option<string>)

  const InitialAuthState := AuthState(None, None, true, None)

  /** `user.email || ''`. */
  function EmailOf(u: User): string {
    OrDefault(u.email, "")
  }

  const NoUsage := Usage(0, 0, 0)

  /** The subscription an administrator receives. */
  function AdminFallbackSubscription(u: User): (s: Subscription)
    ensures s.active && s.status == Active && s.trialEndsAt == NoTrial
    ensures s.tier == Premium && s.isAdmin
    ensures s.limits.leadsPerSearch == 1000 && s.limits.activeJobs == 1000
    ensures s.limits.features == ["admin"]
    ensures s.usage == Usage(0, 0, 0)
    ensures s.customerEmail == (if u.email.Some? then u.email.value else "")
  {
    Subscription(true, Active, NoTrial, Premium, Limits(1000, 1000, ["admin"]), NoUsage, true, EmailOf(u))
  }

  /** The subscription every other signed-in user receives. */
  function LocalBasicSubscription(u: User): (s: Subscription)
    ensures s.active && s.status == Active && s.trialEndsAt == NoTrial
    ensures s.tier == Pro && !s.isAdmin
    ensures s.limits.leadsPerSearch == 100 && s.limits.activeJobs == 5
    ensures s.limits.features == []
    ensures s.usage == Usage(0, 0, 0)
    ensures s.customerEmail == (if u.email.Some? then u.email.value else "")
  {
    Subscription(true, Active, NoTrial, Pro, Limits(100, 5, []), NoUsage, false, EmailOf(u))
  }

  /** Only a claim that is the boolean `true` grants the administrator subscription;
      a string "true", any other value, a missing claim or a failed lookup does not. */
  function SelectSubscription(u: User, t: TokenResult): (s: Subscription)
    ensures s.isAdmin <==> t == TokenClaims(BoolClaim(true))
    ensures s == AdminFallbackSubscription(u) || s == LocalBasicSubscription(u)
  {
    if t.TokenClaims? && t.isAdmin == BoolClaim(true) then AdminFallbackSubscription(u)
    else LocalBasicSubscription(u)
  }

  /** The hook's state once Firebase reports the current user (`None` after sign-out). */
  function OnAuthStateChanged(u: Option<User>, t: TokenResult): (st: AuthState)
    ensures !st.loading && st.error == None && st.user == u
    ensures st.subscription.Some? <==> u.Some?
    ensures u.Some? ==> (st.subscription.value.isAdmin <==> t == TokenClaims(BoolClaim(true)))
    ensures u.Some? ==> st.subscription == Some(SelectSubscription(u.value, t))
  {
    match u
    case None => AuthState(None, None, false, None)
    case Some(user) => AuthState(u, Some(SelectSubscription(user, t)), false, None)
  }

  /** Re-reads the claims for the signed-in user; without a user nothing changes. */
  function RefreshSubscription(st: AuthState, t: TokenResult): (r: AuthState)
    ensures st.user.None? ==> r == st
    ensures r.user == st.user && r.loading == st.loading
    ensures st.user.Some? ==> r.error == None && r.subscription == Some(SelectSubscription(st.user.value, t))
  {
    match st.user
    case None => st
    case Some(user) => st.(subscription := Some(SelectSubscription(user, t)), error := None)
  }

  /** A subscription just handed out has room for a new job. */
  lemma ProvisionedSubscriptionHasCapacity(u: User, t: TokenResult)
    ensures !AtJobLimit(SelectSubscription(u, t))
    ensures SelectSubscription(u, t).active && !HasTrial(SelectSubscription(u, t))
  {
  }

  /** Refreshing right after sign-in with the same claims changes nothing. */
  lemma RefreshAfterSignInIsIdentity(u: User, t: TokenResult)
    ensures RefreshSubscription(OnAuthStateChanged(Some(u), t), t) == OnAuthStateChanged(Some(u), t)
  {
  }

  /** Of two refreshes, the later one decides the subscription. */
  lemma LastRefreshWins(st: AuthState, t1: TokenResult, t2: TokenResult)
    ensures RefreshSubscription(RefreshSubscription(st, t1), t2) == RefreshSubscription(st, t2)
  {
  }

  /** The two provisioned subscriptions differ only in tier, limits and the admin flag. */
  lemma ProvisionedSubscriptionsShareAccountFields(u: User)
    ensures AdminFallbackSubscription(u).(tier := Pro, limits := Limits(100, 5, []), isAdmin := false)
            == LocalBasicSubscription(u)
  {
  }
}

=== FILE: catalog.dfy ===
/**
 The deal engine's lookup tables (industries, equipment types per industry,
 the Places search type per industry, equipment needs per search type) and the
 sample prospects shown when a live search cannot be used.
 */
module Catalog {
  import opened Common

  datatype Priority = High | Medium | Low

  /** A prospect's rating: the number a Places result carries, in tenths of a
      star, or display text such as "N/A" or a sample's "4.1". */
  datatype Rating = Stars(tenths: int) | RatingText(text: string)

  datatype Prospect = Prospect(
    name: string,
    industry: string,
    equipment: string,
    priority: Priority,
    address: string,
    rating: Rating)

  const Industries: seq<string> := [
    "Restaurants & Food Service",
    "Construction & Contracting",
    "Retail & E-commerce",
    "Healthcare & Medical",
    "Beauty & Wellness",
    "Automotive Services"
  ]

  const EquipmentTypes: map<string, seq<string>> := map[
    "Restaurants & Food Service" := ["POS Systems", "Kitchen Equipment", "Seating & Furniture", "Delivery Vehicles"],
    "Construction & Contracting" := ["Small Tools", "Safety Equipment", "Vehicles & Trailers", "Office Equipment"],
    "Retail & E-commerce" := ["POS Systems", "Display Equipment", "Security Systems", "Packaging Equipment"],
    "Healthcare & Medical" := ["Diagnostic Equipment", "Office Furniture", "IT Equipment", "Patient Care Items"],
    "Beauty & Wellness" := ["Salon Equipment", "Fitness Equipment", "Treatment Tables", "POS Systems"],
    "Automotive Services" := ["Diagnostic Tools", "Lifts & Equipment", "Office Systems", "Safety Equipment"]
  ]

  const PlaceTypes: map<string, string> := map[
    "Restaurants & Food Service" := "restaurant",
    "Construction & Contracting" := "general_contractor",
    "Retail & E-commerce" := "store",
    "Healthcare & Medical" := "doctor",
    "Beauty & Wellness" := "beauty_salon",
    "Automotive Services" := "car_repair"
  ]

  const SuggestedNeeds: map<string, seq<string>> := map[
    "restaurant" := ["POS System upgrade", "Kitchen equipment lease", "Delivery vehicle financing"],
    "general_contractor" := ["Tool financing", "Vehicle lease", "Equipment upgrade"],
    "store" := ["POS system", "Display equipment", "Security systems"],
    "doctor" := ["Medical equipment", "Office furniture", "IT systems"],
    "beauty_salon" := ["Salon equipment", "POS systems", "Furniture upgrade"],
    "car_repair" := ["Diagnostic tools", "Lift equipment", "Tool financing"]
  ]

  /** Every listed industry has four equipment types and a search type with
      suggested needs, and every needs list is non-empty. */
  lemma CatalogConsistent()
    ensures forall ind :: ind in Industries ==>
      && ind in EquipmentTypes && |EquipmentTypes[ind]| == 4
      && ind in PlaceTypes && PlaceTypes[ind] in SuggestedNeeds
    ensures forall st :: st in SuggestedNeeds ==> |SuggestedNeeds[st]| > 0
    ensures EquipmentTypes.Keys == PlaceTypes.Keys == set ind | ind in Industries
  {
  }

  /** `s.split(' ')[0]`: the text before the first space. */
  function FirstWord(s: string): (r: string)
    ensures r <= s
    ensures ' ' !in r
    ensures |r| == |s| || s[|r|] == ' '
  {
    if s == [] || s[0] == ' ' then [] else [s[0]] + FirstWord(s[1..])
  }

  /** The five sample prospects for a city and an industry. */
  function FallbackProspects(city: string, industry: string): (r: seq<Prospect>)
    ensures |r| == 5
    ensures forall i :: 0 <= i < 5 ==> r[i].industry == industry && r[i].address == city + " area"
    ensures [r[0].priority, r[1].priority, r[2].priority, r[3].priority, r[4].priority] == [High, Medium, High, Medium, Low]
    ensures Embeds(FirstWord(industry), r[0].name) && Embeds(FirstWord(industry), r[1].name)
      && Embeds(FirstWord(industry), r[3].name)
    ensures city <= r[0].name && city <= r[2].name && city <= r[4].name
  {
    var w := FirstWord(industry);
    var area := city + " area";
    var r := [
      Prospect(city + " " + w + " Business", industry, "POS System upgrade needed", High, area, RatingText("4.1")),
      Prospect("Metro " + w + " Co.", industry, "Equipment financing inquiry", Medium, area, RatingText("3.8")),
      Prospect(city + " Business Solutions", industry, "Expansion equipment needed", High, area, RatingText("3.2")),
      Prospect("Local " + w + " LLC", industry, "Technology upgrade required", Medium, area, RatingText("4.3")),
      Prospect(city + " Professional Services", industry, "Office equipment lease", Low, area, RatingText("4.7"))
    ];
    assert w <= (r[0].name)[|city| + 1..];
    assert w <= (r[1].name)[6..];
    assert w <= (r[3].name)[6..];
    r
  }

  /** The samples for any two searches differ only in names, addresses and the
      industry they are labelled with: needs, priorities and ratings are fixed. */
  lemma SamplesDifferOnlyInPlace(c1: string, i1: string, c2: string, i2: string)
    ensures forall k :: 0 <= k < 5 ==>
      && FallbackProspects(c1, i1)[k].equipment == FallbackProspects(c2, i2)[k].equipment
      && FallbackProspects(c1, i1)[k].priority == FallbackProspects(c2, i2)[k].priority
      && FallbackProspects(c1, i1)[k].rating == FallbackProspects(c2, i2)[k].rating
  {
  }
}

=== FILE: common.dfy ===
/**
 Shared value types for the front-end model: optional values, and the
 JavaScript notion of a "truthy" string that the components test with `!!s`
 and `s || fallback`.
 */
module Common {

  /** A value that may be absent (`undefined` / `null` in the components). */
  datatype Option<+T> = None | Some(value: T)

  /** A string value is truthy exactly when it is present and non-empty. */
  predicate Truthy(s: Option<string>) {
    s.Some? && s.value != ""
  }

  /** `s || fallback` for an optional string. */
  function OrDefault(s: Option<string>, fallback: string): string {
    if Truthy(s) then s.value else fallback
  }

  /** `w` occurs somewhere inside `t`. */
  predicate Embeds(w: string, t: string) {
    exists k :: 0 <= k <= |t| && w <= t[k..]
  }
}

=== FILE: dashboard.dfy ===
/**
 The dashboard page: which view it shows for the current subscription, the
 New Search gate, the tier badge, and the list of jobs started this session.
 */
module Dashboard {
  import opened Common
  import opened Subscriptions
  import Auth
  import Wizard

  /** The three things the page can render. */
  datatype View =
    | Spinner
    | Pricing
    | Workspace(trialBanner: bool, newSearchEnabled: bool, tierLabel: string)

  /** ASCII `toUpperCase` of one character. */
  function UpperChar(c: char): char {
    if 'a' <= c <= 'z' then (c as int - 32) as char else c
  }

  /** `s.charAt(0).toUpperCase() + s.slice(1)`. */
  function Capitalize(s: string): (r: string)
    ensures |r| == |s|
    ensures s != [] ==> r[0] == UpperChar(s[0]) && r[1..] == s[1..]
  {
    if s == [] then [] else [UpperChar(s[0])] + s[1..]
  }

  /** Capitalizing twice is capitalizing once: a label already capitalized is kept. */
  lemma CapitalizeIdempotent(s: string)
    ensures Capitalize(Capitalize(s)) == Capitalize(s)
  {
  }

  function TierLabel(t: Tier): string {
    Capitalize(TierName(t))
  }

  lemma TierLabels()
    ensures TierLabel(Starter) == "Starter" && TierLabel(Pro) == "Pro" && TierLabel(Premium) == "Premium"
  {
  }

  /** The page for a loaded (`Some`) or pending (`None`) subscription. */
  function PageView(sub: Option<Subscription>): (v: View)
    ensures v == Spinner <==> sub.None?
    ensures v == Pricing <==> sub.Some? && !sub.value.active && !HasTrial(sub.value)
    ensures v.Workspace? ==> (v.trialBanner <==> HasTrial(sub.value))
    ensures v.Workspace? ==> (v.newSearchEnabled <==> !AtJobLimit(sub.value))
    ensures v.Workspace? ==> v.tierLabel == TierLabel(sub.value.tier)
  {
    match sub
    case None => Spinner
    case Some(s) =>
      if !s.active && !HasTrial(s) then Pricing
      else Workspace(HasTrial(s), !AtJobLimit(s), TierLabel(s.tier))
  }

  datatype DashboardState = DashboardState(activeJobs: seq<string>, showWizard: bool)

  /** New Search opens the wizard unless the button is disabled. */
  function OpenWizard(d: DashboardState, s: Subscription): (r: DashboardState)
    ensures r.activeJobs == d.activeJobs
    ensures r.showWizard <==> d.showWizard || !AtJobLimit(s)
  {
    if AtJobLimit(s) then d else d.(showWizard := true)
  }

  /** A started job is appended to the session's job list and the wizard closes. */
  function HandleJobCreated(d: DashboardState, jobId: string): (r: DashboardState)
    ensures |r.activeJobs| == |d.activeJobs| + 1
    ensures r.activeJobs[..|d.activeJobs|] == d.activeJobs && r.activeJobs[|d.activeJobs|] == jobId
    ensures !r.showWizard
  {
    DashboardState(d.activeJobs + [jobId], false)
  }

  /** Pressing New Search again changes nothing more. */
  lemma OpenWizardIdempotent(d: DashboardState, s: Subscription)
    ensures OpenWizard(OpenWizard(d, s), s) == OpenWizard(d, s)
  {
  }

  /** Jobs are listed in the order they were created. */
  lemma JobsKeepCreationOrder(d: DashboardState, a: string, b: string)
    ensures HandleJobCreated(HandleJobCreated(d, a), b).activeJobs == d.activeJobs + [a, b]
  {
  }

  /** The New Search button and the wizard's submit use one gate: when the button
      is enabled a submit reaches the backend, and when it is disabled none can. */
  lemma NewSearchGateMatchesSubmitGate(s: Subscription, w: Wizard.WizardState, o: Wizard.StartOutcome)
    requires PageView(Some(s)).Workspace?
    ensures PageView(Some(s)).newSearchEnabled <==> Wizard.HandleSubmit(w, s, o).request.Some?
  {
  }

  /** A freshly signed-in user lands on the workspace, without a trial banner,
      with New Search enabled. */
  lemma SignedInUserSeesWorkspace(u: Auth.User, t: Auth.TokenResult)
    ensures PageView(Auth.OnAuthStateChanged(Some(u), t).subscription)
            == Workspace(false, true, if t == Auth.TokenClaims(Auth.BoolClaim(true)) then "Premium" else "Pro")
  {
  }

  /** Before Firebase first reports a user, the page waits on the spinner. */
  lemma InitialStateShowsSpinner()
    ensures PageView(Auth.InitialAuthState.subscription) == Spinner
  {
  }

  /** Signed out, the page waits on the spinner. */
  lemma SignedOutShowsSpinner(t: Auth.TokenResult)
    ensures PageView(Auth.OnAuthStateChanged(None, t).subscription) == Spinner
  {
  }
}

=== FILE: leads_pipeline.dfy ===
/**
 The lead pipeline: leads grouped per search job, a status change applied to
 every copy of a lead, the Kanban columns that filter leads by status, and the
 tag chips on a lead card.
 */
module LeadsPipeline {
  import opened Common

  /** The statuses the board knows, and whatever other label the backend sends.
      A lead's status string is read with `StatusFromName`, so `OtherStatus`
      never carries one of the three column names. */
  datatype LeadStatus = Searching | Returned | Emailed | OtherStatus(name: string)

  /** No `OtherStatus` spells a column's name. */
  predicate Canonical(s: LeadStatus) {
    s.OtherStatus? ==> s.name != "searching" && s.name != "returned" && s.name != "emailed"
  }

  /** The status string the backend stores. */
  function StatusName(s: LeadStatus): string {
    match s
    case Searching => "searching"
    case Returned => "returned"
    case Emailed => "emailed"
    case OtherStatus(name) => name
  }

  /** The status a lead's status string denotes. */
  function StatusFromName(name: string): (s: LeadStatus)
    ensures Canonical(s)
    ensures s == Searching <==> name == "searching"
    ensures s == Returned <==> name == "returned"
    ensures s == Emailed <==> name == "emailed"
  {
    if name == "searching" then Searching
    else if name == "returned" then Returned
    else if name == "emailed" then Emailed
    else OtherStatus(name)
  }

  /** Reading a status string and writing it back gives the same string. */
  lemma StatusNameRoundTrip(name: string)
    ensures StatusName(StatusFromName(name)) == name
  {
  }

  /** On canonical statuses, the model's status equality is the source's
      `lead.status === status` string comparison. */
  lemma StatusEqualityMatchesNames(s1: LeadStatus, s2: LeadStatus)
    requires Canonical(s1) && Canonical(s2)
    ensures s1 == s2 <==> StatusName(s1) == StatusName(s2)
  {
  }

  datatype ContactInfo = ContactInfo(email: Option<string>, phone: Option<string>, website: Option<string>)

  datatype Lead = Lead(
    id: string,
    businessName: string,
    contact: ContactInfo,
    address: string,
    category: string,
    tags: seq<string>,
    status: LeadStatus,
    createdAt: string,
    jobId: string)

  /** One entry of the job-keyed lead table, in the table's key order. */
  datatype JobLeads = JobLeads(jobId: string, leads: seq<Lead>)

  type Board = seq<JobLeads>

  /** The lead after a status change addressed to `leadId`. */
  function Relabel(l: Lead, leadId: string, s: LeadStatus): Lead {
    if l.id == leadId then l.(status := s) else l
  }

  /** A status change within one job's list. */
  function SetStatus(leads: seq<Lead>, leadId: string, s: LeadStatus): (r: seq<Lead>)
    ensures |r| == |leads|
    ensures forall i :: 0 <= i < |leads| && leads[i].id == leadId ==> r[i] == leads[i].(status := s)
    ensures forall i :: 0 <= i < |leads| && leads[i].id != leadId ==> r[i] == leads[i]
  {
    if leads == [] then [] else [Relabel(leads[0], leadId, s)] + SetStatus(leads[1..], leadId, s)
  }

  /** A status change across every job's list. */
  function UpdateBoard(b: Board, leadId: string, s: LeadStatus): (r: Board)
    ensures |r| == |b|
    ensures forall j :: 0 <= j < |b| ==> r[j].jobId == b[j].jobId && |r[j].leads| == |b[j].leads|
    ensures forall j, i :: 0 <= j < |b| && 0 <= i < |b[j].leads| && b[j].leads[i].id == leadId ==>
              r[j].leads[i] == b[j].leads[i].(status := s)
    ensures forall j, i :: 0 <= j < |b| && 0 <= i < |b[j].leads| && b[j].leads[i].id != leadId ==>
              r[j].leads[i] == b[j].leads[i]
  {
    seq(|b|, j requires 0 <= j < |b| => JobLeads(b[j].jobId, SetStatus(b[j].leads, leadId, s)))
  }

  /** The backend's answer to a lead update. */
  datatype UpdateOutcome = Updated | UpdateFailed

  /** The status select on a card: the local table changes only after the backend accepts. */
  function HandleStatusChange(b: Board, leadId: string, s: LeadStatus, o: UpdateOutcome): (r: Board)
    ensures o == UpdateFailed ==> r == b
    ensures o == Updated ==> r == UpdateBoard(b, leadId, s)
  {
    if o == Updated then UpdateBoard(b, leadId, s) else b
  }

  /** Of two status changes to the same lead, the later one decides. */
  lemma LastStatusChangeWins(b: Board, leadId: string, s1: LeadStatus, s2: LeadStatus)
    ensures UpdateBoard(UpdateBoard(b, leadId, s1), leadId, s2) == UpdateBoard(b, leadId, s2)
  {
    var lhs := UpdateBoard(UpdateBoard(b, leadId, s1), leadId, s2);
    var rhs := UpdateBoard(b, leadId, s2);
    forall j | 0 <= j < |b|
      ensures lhs[j] == rhs[j]
    {
      assert lhs[j].leads == rhs[j].leads;
    }
  }

  /** Applying the same status change twice is applying it once. */
  lemma StatusChangeIdempotent(b: Board, leadId: string, s: LeadStatus)
    ensures UpdateBoard(UpdateBoard(b, leadId, s), leadId, s) == UpdateBoard(b, leadId, s)
  {
    LastStatusChangeWins(b, leadId, s, s);
  }

  /** All leads, job by job, each job's list in order (`Object.values(..).flat()`). */
  function Flatten(b: Board): seq<Lead> {
    if b == [] then [] else b[0].leads + Flatten(b[1..])
  }

  /** The leads of `xs` whose status is `s`, in order. */
  function Filter(xs: seq<Lead>, s: LeadStatus): (r: seq<Lead>)
    ensures |r| <= |xs|
    ensures forall x :: multiset(r)[x] == if x.status == s then multiset(xs)[x] else 0
  {
    if xs == [] then []
    else
      assert xs == [xs[0]] + xs[1..];
      if xs[0].status == s then [xs[0]] + Filter(xs[1..], s)
    else Filter(xs[1..], s)
  }

  /** The leads no column shows. */
  function Unlisted(xs: seq<Lead>): (r: seq<Lead>)
    ensures forall x :: multiset(r)[x] == if x.status.OtherStatus? then multiset(xs)[x] else 0
  {
    if xs == [] then []
    else
      assert xs == [xs[0]] + xs[1..];
      if xs[0].status.OtherStatus? then [xs[0]] + Unlisted(xs[1..])
    else Unlisted(xs[1..])
  }

  function LeadsByStatus(b: Board, s: LeadStatus): seq<Lead> {
    Filter(Flatten(b), s)
  }

  datatype Column = Column(id: string, title: string, status: LeadStatus)

  const Columns: seq<Column> := [
    Column("searching", "Searching", Searching),
    Column("returned", "Returned", Returned),
    Column("emailed", "Emailed", Emailed)
  ]

  lemma {:induction false} FilterAppend(a: seq<Lead>, c: seq<Lead>, s: LeadStatus)
    ensures Filter(a + c, s) == Filter(a, s) + Filter(c, s)
  {
    if a == [] {
      assert a + c == c;
    } else {
      assert (a + c)[0] == a[0];
      assert (a + c)[1..] == a[1..] + c;
      FilterAppend(a[1..], c, s);
    }
  }

  lemma {:induction false} FlattenAppend(b1: Board, b2: Board)
    ensures Flatten(b1 + b2) == Flatten(b1) + Flatten(b2)
  {
    if b1 == [] {
      assert b1 + b2 == b2;
    } else {
      assert (b1 + b2)[0] == b1[0];
      assert (b1 + b2)[1..] == b1[1..] + b2;
      FlattenAppend(b1[1..], b2);
    }
  }

  /** A column lists the leads of earlier jobs before those of later jobs. */
  lemma LeadsByStatusJobOrder(b1: Board, b2: Board, s: LeadStatus)
    ensures LeadsByStatus(b1 + b2, s) == LeadsByStatus(b1, s) + LeadsByStatus(b2, s)
  {
    FlattenAppend(b1, b2);
    FilterAppend(Flatten(b1), Flatten(b2), s);
  }

  /** The columns and the unlisted leads together hold every lead exactly once. */
  lemma ColumnsPartitionLeads(b: Board)
    ensures multiset(Flatten(b)) ==
      multiset(LeadsByStatus(b, Searching)) + multiset(LeadsByStatus(b, Returned))
      + multiset(LeadsByStatus(b, Emailed)) + multiset(Unlisted(Flatten(b)))
  {
    var all := Flatten(b);
    var m := multiset(Filter(all, Searching)) + multiset(Filter(all, Returned))
      + multiset(Filter(all, Emailed)) + multiset(Unlisted(all));
    forall x
      ensures multiset(all)[x] == m[x]
    {
      assert m[x] == multiset(Filter(all, Searching))[x] + multiset(Filter(all, Returned))[x]
        + multiset(Filter(all, Emailed))[x] + multiset(Unlisted(all))[x];
    }
    assert multiset(all) == m;
  }

  /** A lead with a column status sits in its own column and in no other. */
  lemma LeadInExactlyOneColumn(b: Board, x: Lead)
    requires x in Flatten(b) && !x.status.OtherStatus?
    ensures forall c :: c in Columns ==> (x in LeadsByStatus(b, c.status) <==> c.status == x.status)
    ensures exists c :: c in Columns && c.status == x.status
  {
    var all := Flatten(b);
    assert multiset(all)[x] > 0;
    forall c | c in Columns
      ensures x in LeadsByStatus(b, c.status) <==> c.status == x.status
    {
      assert multiset(Filter(all, c.status))[x] == if x.status == c.status then multiset(all)[x] else 0;
    }
    assert Columns[0] in Columns && Columns[1] in Columns && Columns[2] in Columns;
  }

  /** After a change to `leadId`, every copy of that lead is in the new status's column. */
  lemma ChangedLeadMovesToColumn(b: Board, leadId: string, s: LeadStatus, x: Lead)
    requires x in Flatten(UpdateBoard(b, leadId, s)) && x.id == leadId
    ensures x.status == s
  {
    FlattenMembership(UpdateBoard(b, leadId, s), x);
  }

  lemma {:induction false} FlattenMembership(b: Board, x: Lead)
    requires x in Flatten(b)
    ensures exists j, i :: 0 <= j < |b| && 0 <= i < |b[j].leads| && b[j].leads[i] == x
  {
    if x in b[0].leads {
      var i :| 0 <= i < |b[0].leads| && b[0].leads[i] == x;
      assert b[0].leads[i] == x;
    } else {
      FlattenMembership(b[1..], x);
      var j, i :| 0 <= j < |b[1..]| && 0 <= i < |b[1..][j].leads| && b[1..][j].leads[i] == x;
      assert b[j + 1].leads[i] == x;
    }
  }

  /** The tag row of a card: the first two tags, and a "+n more" marker for the rest. */
  datatype TagRow = TagRow(shown: seq<string>, more: Option<nat>)

  function TagChips(tags: seq<string>): (r: TagRow)
    ensures |r.shown| == if |tags| > 2 then 2 else |tags|
    ensures r.shown <= tags
    ensures r.more.Some? <==> |tags| > 2
    ensures r.more.Some? ==> r.more.value == |tags| - 2
  {
    if |tags| > 2 then TagRow(tags[..2], Some(|tags| - 2)) else TagRow(tags, None)
  }

  /** The chips and the hidden tags the marker counts rebuild the tag list. */
  lemma TagChipsRebuildTags(tags: seq<string>)
    ensures TagChips(tags).shown + tags[|TagChips(tags).shown|..] == tags
    ensures |tags[|TagChips(tags).shown|..]| == match TagChips(tags).more
      case None => 0
      case Some(n) => n
  {
  }
}

=== FILE: numeric_input.dfy ===
/**
 Decimal number entry. The amount fields of the search wizard and of the deal
 builder read their text with JavaScript's `parseInt` and replace a failed
 parse (NaN) by 0. This module models `parseInt` with radix 10 on the whole
 string (skip leading white space, optional sign, longest run of decimal
 digits, NaN when there are none) and proves it inverts decimal rendering.
 */
module NumericInput {
  import opened Common

  predicate IsDigit(c: char) {
    '0' <= c <= '9'
  }

  predicate AllDigits(s: string) {
    forall i :: 0 <= i < |s| ==> IsDigit(s[i])
  }

  function DigitValue(c: char): nat
    requires IsDigit(c)
  {
    (c as int) - ('0' as int)
  }

  function DigitChar(d: nat): (c: char)
    requires d < 10
    ensures IsDigit(c) && DigitValue(c) == d
  {
    (d + '0' as int) as char
  }

  /** The white space and line terminators that `parseInt` skips before the number. */
  predicate IsJsWhitespace(c: char) {
    var k := c as int;
    k == 0x09 || k == 0x0A || k == 0x0B || k == 0x0C || k == 0x0D || k == 0x20
    || k == 0xA0 || k == 0x1680 || (0x2000 <= k <= 0x200A) || k == 0x2028
    || k == 0x2029 || k == 0x202F || k == 0x205F || k == 0x3000 || k == 0xFEFF
  }

  /** Drops leading white space. */
  function TrimStart(s: string): (r: string)
    ensures |r| <= |s| && r == s[|s| - |r|..]
    ensures forall i :: 0 <= i < |s| - |r| ==> IsJsWhitespace(s[i])
    ensures r == [] || !IsJsWhitespace(r[0])
  {
    if s != [] && IsJsWhitespace(s[0]) then TrimStart(s[1..]) else s
  }

  /** The longest prefix of `s` made of decimal digits. */
  function LeadingDigits(s: string): (r: string)
    ensures |r| <= |s| && r == s[..|r|]
    ensures AllDigits(r)
    ensures |r| == |s| || !IsDigit(s[|r|])
  {
    if s != [] && IsDigit(s[0]) then [s[0]] + LeadingDigits(s[1..]) else []
  }

  /** The value of a run of decimal digits, most significant first. */
  function DigitsValue(ds: string): nat
    requires AllDigits(ds)
  {
    if ds == [] then 0 else DigitsValue(ds[..|ds| - 1]) * 10 + DigitValue(ds[|ds| - 1])
  }

  /** The number a run of digits at the front of `u` denotes; `None` when there is none. */
  function ParseUnsigned(u: string): Option<int> {
    var ds := LeadingDigits(u);
    if ds == [] then None else Some(DigitsValue(ds))
  }

  function Negate(p: Option<int>): Option<int> {
    match p
    case None => None
    case Some(v) => Some(-v)
  }

  /** `parseInt(s, 10)`; `None` stands for NaN. */
  function ParseInt(s: string): Option<int> {
    var t := TrimStart(s);
    if t != [] && t[0] == '-' then Negate(ParseUnsigned(t[1..]))
    else if t != [] && t[0] == '+' then ParseUnsigned(t[1..])
    else ParseUnsigned(t)
  }

  /** `parseInt(s) || 0` and `isNaN(v) ? 0 : v` agree on integers: NaN becomes 0. */
  function NumberOrZero(p: Option<int>): int {
    match p
    case None => 0
    case Some(v) => v
  }

  /** The number an amount field holds after the user types `text` into it. */
  function AmountFromInput(text: string): int {
    NumberOrZero(ParseInt(text))
  }

  /** Decimal rendering of a natural number, without leading zeros. */
  function DecimalString(n: nat): (r: string)
    ensures |r| >= 1 && AllDigits(r)
  {
    if n < 10 then [DigitChar(n)] else DecimalString(n / 10) + [DigitChar(n % 10)]
  }

  /** Decimal rendering of an integer, as JavaScript's `${n}` prints it. */
  function IntString(n: int): string {
    if n < 0 then "-" + DecimalString(-n) else DecimalString(n)
  }

  lemma {:induction false} DigitsValueOfDecimal(n: nat)
    ensures DigitsValue(DecimalString(n)) == n
  {
    if n >= 10 {
      var ds := DecimalString(n);
      assert ds[..|ds| - 1] == DecimalString(n / 10);
      DigitsValueOfDecimal(n / 10);
    }
  }

  lemma {:induction false} LeadingDigitsOfRun(ds: string, rest: string)
    requires AllDigits(ds)
    requires rest == [] || !IsDigit(rest[0])
    ensures LeadingDigits(ds + rest) == ds
  {
    if ds != [] {
      assert (ds + rest)[1..] == ds[1..] + rest;
      LeadingDigitsOfRun(ds[1..], rest);
    }
  }

  /** Reading back a rendered integer, followed by anything that does not
      continue the digit run, yields that integer. */
  lemma ParseIntOfIntString(n: int, rest: string)
    requires rest == [] || !IsDigit(rest[0])
    ensures ParseInt(IntString(n) + rest) == Some(n)
  {
    var m: nat := if n < 0 then -n else n;
    var d := DecimalString(m);
    var u := d + rest;
    ParseUnsignedRun(m, rest);
    if n < 0 {
      assert IntString(n) == "-" + d;
      SignThenRun(d, rest);
      ParseIntAfterMinus(u);
    } else {
      assert IntString(n) == d;
      ParseIntWithoutSign(u);
    }
  }

  lemma SignThenRun(d: string, rest: string)
    ensures ("-" + d) + rest == ['-'] + (d + rest)
  {
  }

  lemma ParseIntAfterMinus(u: string)
    ensures ParseInt(['-'] + u) == Negate(ParseUnsigned(u))
  {
    var t := ['-'] + u;
    assert t[0] == '-' && t[1..] == u;
    TrimStartKeeps(t);
  }

  lemma ParseIntWithoutSign(u: string)
    requires u != [] && !IsJsWhitespace(u[0]) && u[0] != '-' && u[0] != '+'
    ensures ParseInt(u) == ParseUnsigned(u)
  {
    TrimStartKeeps(u);
  }

  lemma TrimStartKeeps(s: string)
    requires s != [] && !IsJsWhitespace(s[0])
    ensures TrimStart(s) == s
  {
  }

  /** A rendered natural number, followed by anything that does not continue
      the digit run, reads back as itself and starts with neither white space nor a sign. */
  lemma ParseUnsignedRun(m: nat, rest: string)
    requires rest == [] || !IsDigit(rest[0])
    ensures ParseUnsigned(DecimalString(m) + rest) == Some(m)
    ensures !IsJsWhitespace((DecimalString(m) + rest)[0])
    ensures (DecimalString(m) + rest)[0] != '-' && (DecimalString(m) + rest)[0] != '+'
  {
    DigitsValueOfDecimal(m);
    LeadingDigitsOfRun(DecimalString(m), rest);
    assert (DecimalString(m) + rest)[0] == DecimalString(m)[0];
  }

  /** An amount field fed text without digits holds 0. */
  lemma NonNumericAmountIsZero(text: string)
    requires forall i :: 0 <= i < |text| ==> !IsDigit(text[i])
    ensures ParseInt(text) == None
    ensures AmountFromInput(text) == 0
  {
  }

  /** An amount field fed the rendering of a number holds that number. */
  lemma AmountRoundTrip(n: int)
    ensures AmountFromInput(IntString(n)) == n
  {
    ParseIntOfIntString(n, []);
    assert IntString(n) + [] == IntString(n);
  }
}

=== FILE: prospect_finder.dfy ===
/**
 The deal engine's prospect finder and calculators: turning Places search
 results into prospects, the fallback to sample prospects, the income
 projection and the deal-amount field. The Places request and the random
 choice of a suggested need are parameters.
 */
module ProspectFinder {
  import opened Common
  import opened NumericInput
  import opened Catalog

  /** One Places text-search result; the rating is in tenths of a star. */
  datatype Place = Place(name: Option<string>, formattedAddress: Option<string>, rating: Option<int>)

  /** `rating && rating < 3.5` gives High, `rating && rating > 4.5` gives Low,
      anything else (including a missing or zero rating) Medium. */
  function PriorityFor(rating: Option<int>): (p: Priority)
    ensures p == High <==> rating.Some? && rating.value != 0 && rating.value < 35
    ensures p == Low <==> rating.Some? && rating.value != 0 && rating.value > 45
  {
    if rating.Some? && rating.value != 0 && rating.value > 45 then Low
    else if rating.Some? && rating.value != 0 && rating.value < 35 then High
    else Medium
  }

  function Urgency(p: Priority): nat {
    match p
    case High => 2
    case Medium => 1
    case Low => 0
  }

  /** Among rated places, a better rating never raises the priority. */
  lemma PriorityFallsWithRating(r1: int, r2: int)
    requires 0 < r1 <= r2
    ensures Urgency(PriorityFor(Some(r1))) >= Urgency(PriorityFor(Some(r2)))
  {
  }

  /** `INDUSTRY_TO_PLACE_TYPE_MAP[industry] || 'establishment'`. */
  function SearchTypeFor(industry: string): (st: string)
    ensures industry in Industries ==> st == PlaceTypes[industry] && st in SuggestedNeeds
    ensures industry !in PlaceTypes ==> st == "establishment"
  {
    CatalogConsistent();
    if industry in PlaceTypes && PlaceTypes[industry] != "" then PlaceTypes[industry] else "establishment"
  }

  /** The needs a prospect's suggestion is drawn from. */
  function NeedsFor(searchType: string): (needs: seq<string>)
    ensures |needs| > 0
    ensures searchType in SuggestedNeeds ==> needs == SuggestedNeeds[searchType]
    ensures searchType !in SuggestedNeeds ==> needs == ["Equipment financing"]
  {
    CatalogConsistent();
    if searchType in SuggestedNeeds then SuggestedNeeds[searchType] else ["Equipment financing"]
  }

  /** A Places result as a prospect; `draw` stands for the random index. */
  function ToProspect(p: Place, industry: string, searchType: string, draw: nat): (r: Prospect)
    ensures r.industry == industry && r.equipment in NeedsFor(searchType)
    ensures r.priority == PriorityFor(p.rating)
    ensures Truthy(p.name) ==> r.name == p.name.value
    ensures !Truthy(p.name) ==> r.name == "Unnamed Business"
    ensures Truthy(p.formattedAddress) ==> r.address == p.formattedAddress.value
    ensures !Truthy(p.formattedAddress) ==> r.address == "Address not available"
    ensures p.rating.Some? && p.rating.value != 0 ==> r.rating == Stars(p.rating.value)
    ensures r.rating == RatingText("N/A") <==> p.rating.None? || p.rating.value == 0
  {
    var needs := NeedsFor(searchType);
    Prospect(
      OrDefault(p.name, "Unnamed Business"),
      industry,
      needs[draw % |needs|],
      PriorityFor(p.rating),
      OrDefault(p.formattedAddress, "Address not available"),
      if p.rating.Some? && p.rating.value != 0 then Stars(p.rating.value) else RatingText("N/A"))
  }

  function Min(a: int, b: int): int {
    if a <= b then a else b
  }

  /** The first ten results, in order, as prospects; `draw(i)` is the i-th random draw. */
  function MapPlaces(places: seq<Place>, industry: string, searchType: string, draw: nat -> nat): (r: seq<Prospect>)
    ensures |r| == Min(10, |places|)
    ensures forall i :: 0 <= i < |r| ==>
      && r[i].industry == industry
      && r[i].equipment in NeedsFor(searchType)
      && r[i].priority == PriorityFor(places[i].rating)
    ensures forall i :: 0 <= i < |r| ==>
      && (Truthy(places[i].name) ==> r[i].name == places[i].name.value)
      && (!Truthy(places[i].name) ==> r[i].name == "Unnamed Business")
      && (Truthy(places[i].formattedAddress) ==> r[i].address == places[i].formattedAddress.value)
      && (!Truthy(places[i].formattedAddress) ==> r[i].address == "Address not available")
      && (places[i].rating.Some? && places[i].rating.value != 0 ==> r[i].rating == Stars(places[i].rating.value))
      && (r[i].rating == RatingText("N/A") <==> places[i].rating.None? || places[i].rating.value == 0)
  {
    var r := seq(Min(10, |places|), i requires 0 <= i < Min(10, |places|) => ToProspect(places[i], industry, searchType, draw(i)));
    assert forall i :: 0 <= i < |r| ==> r[i] == ToProspect(places[i], industry, searchType, draw(i));
    r
  }

  /** Results past the tenth never reach the prospect list. */
  lemma MapPlacesIgnoresLaterResults(places: seq<Place>, industry: string, searchType: string, draw: nat -> nat)
    ensures MapPlaces(places, industry, searchType, draw)
         == MapPlaces(places[..Min(10, |places|)], industry, searchType, draw)
  {
  }

  /** For a listed industry, every live prospect's suggested equipment is one of
      the needs listed for that industry's search type. */
  lemma LiveProspectsSuggestListedNeeds(places: seq<Place>, industry: string, draw: nat -> nat)
    requires industry in Industries
    ensures forall i :: 0 <= i < |MapPlaces(places, industry, SearchTypeFor(industry), draw)| ==>
      MapPlaces(places, industry, SearchTypeFor(industry), draw)[i].equipment in SuggestedNeeds[PlaceTypes[industry]]
  {
  }

  /** What comes back from the Places request. */
  datatype PlacesReply =
    | NetworkError
    | HttpError(code: int)
    | MalformedBody
    | PlacesBody(status: string, results: seq<Place>)

  datatype FinderError = MissingInput | KeyNotConfigured | NoResults | PlacesFailure

  datatype FinderState = FinderState(
    prospects: seq<Prospect>,
    showResults: bool,
    loading: bool,
    apiError: Option<FinderError>)

  /** The text search a run sends: search type and city. */
  datatype PlacesQuery = PlacesQuery(searchType: string, city: string)

  datatype FinderRun = FinderRun(state: FinderState, query: Option<PlacesQuery>)

  const PlaceholderKey := "YOUR_GOOGLE_PLACES_API_KEY_HERE"

  predicate KeyUsable(key: Option<string>) {
    Truthy(key) && key.value != PlaceholderKey
  }

  /** The error path: report, show the sample prospects, stop loading. */
  function ShowFallback(st: FinderState, city: string, industry: string, e: FinderError): FinderState {
    FinderState(
      FallbackProspects(if city != "" then city else "your city",
                        if industry != "" then industry else "selected industry"),
      true, false, Some(e))
  }

  /** One press of Find Prospects. */
  function GenerateProspects(st: FinderState, city: string, industry: string, key: Option<string>,
                             reply: PlacesReply, draw: nat -> nat): (r: FinderRun)
    ensures city == "" || industry == "" ==>
      r.query == None && r.state == st.(apiError := Some(MissingInput), showResults := false)
    ensures r.query.Some? <==> city != "" && industry != "" && KeyUsable(key)
    ensures r.query.Some? ==> r.query.value == PlacesQuery(SearchTypeFor(industry), city)
    ensures city != "" && industry != "" ==>
      && r.state.showResults && !r.state.loading
      && 1 <= |r.state.prospects| <= 10
      && forall i :: 0 <= i < |r.state.prospects| ==> r.state.prospects[i].industry == industry
    ensures r.state.apiError == None <==>
      && r.query.Some? && reply.PlacesBody? && (reply.status == "OK" || reply.status == "ZERO_RESULTS")
      && |reply.results| > 0
    ensures r.state.apiError == None && reply.PlacesBody? ==>
      r.state.prospects == MapPlaces(reply.results, industry, SearchTypeFor(industry), draw)
    ensures city != "" && industry != "" && r.state.apiError.Some? ==>
      r.state.prospects == FallbackProspects(city, industry)
    ensures city != "" && industry != "" && !KeyUsable(key) ==> r.state.apiError == Some(KeyNotConfigured)
    ensures (r.query.Some? && reply.PlacesBody? && (reply.status == "OK" || reply.status == "ZERO_RESULTS")
             && |reply.results| == 0) ==> r.state.apiError == Some(NoResults)
    ensures r.query.Some? && (!reply.PlacesBody? || (reply.status != "OK" && reply.status != "ZERO_RESULTS")) ==>
      r.state.apiError == Some(PlacesFailure)
  {
    if city == "" || industry == "" then
      FinderRun(st.(apiError := Some(MissingInput), showResults := false), None)
    else if !KeyUsable(key) then
      FinderRun(ShowFallback(st, city, industry, KeyNotConfigured), None)
    else
      var searchType := SearchTypeFor(industry);
      var query := Some(PlacesQuery(searchType, city));
      var next :=
        match reply
        case PlacesBody(status, results) =>
          if status != "OK" && status != "ZERO_RESULTS" then ShowFallback(st, city, industry, PlacesFailure)
          else if |results| > 0 then FinderState(MapPlaces(results, industry, searchType, draw), true, false, None)
          else ShowFallback(st, city, industry, NoResults)
        case _ => ShowFallback(st, city, industry, PlacesFailure);
      FinderRun(next, query)
  }

  /** With both inputs present, a run replaces everything the finder showed
      before: its outcome does not depend on the previous state. */
  lemma RunForgetsPreviousResults(st1: FinderState, st2: FinderState, city: string, industry: string,
                                  key: Option<string>, reply: PlacesReply, draw: nat -> nat)
    requires city != "" && industry != ""
    ensures GenerateProspects(st1, city, industry, key, reply, draw)
         == GenerateProspects(st2, city, industry, key, reply, draw)
  {
  }

  datatype Income = Income(monthly: int, yearly: int)

  /** The income projection from the two sliders: a year is twelve months. */
  function IncomeFor(dealCount: int, avgCommission: int): (r: Income)
    ensures r.yearly == 12 * r.monthly
  {
    var monthly := dealCount * avgCommission;
    Income(monthly, monthly * 12)
  }

  /** Over the sliders' ranges (5 to 100 deals, $700 to $2450 a deal) the
      projection stays between $3,500 and $245,000 a month. */
  lemma IncomeWithinSliderRange(dealCount: int, avgCommission: int)
    requires 5 <= dealCount <= 100 && 700 <= avgCommission <= 2450
    ensures 3500 <= IncomeFor(dealCount, avgCommission).monthly <= 245000
    ensures 42000 <= IncomeFor(dealCount, avgCommission).yearly <= 2940000
  {
  }

  /** Moving either slider up never lowers the projection. */
  lemma IncomeGrowsWithSliders(d1: int, c1: int, d2: int, c2: int)
    requires 0 <= d1 <= d2 && 0 <= c1 <= c2
    ensures IncomeFor(d1, c1).monthly <= IncomeFor(d2, c2).monthly
    ensures IncomeFor(d1, c1).yearly <= IncomeFor(d2, c2).yearly
  {
  }

  /** The deal builder's inputs. */
  datatype DealBuilder = DealBuilder(industry: string, equipmentType: string, dealAmount: int)

  /** Picking an industry clears the chosen equipment type. */
  function ChangeIndustry(b: DealBuilder, industry: string): (r: DealBuilder)
    ensures r.industry == industry && r.equipmentType == "" && r.dealAmount == b.dealAmount
  {
    b.(industry := industry, equipmentType := "")
  }

  /** The chosen equipment type is empty or one the select offers for the industry. */
  predicate SelectionOffered(b: DealBuilder) {
    b.equipmentType == "" || b.equipmentType in EquipmentChoices(b.industry)
  }

  /** Clearing the type on an industry change keeps the selection one the
      select offers, whatever was chosen before. */
  lemma ChangeIndustryKeepsSelectionOffered(b: DealBuilder, industry: string)
    ensures SelectionOffered(ChangeIndustry(b, industry))
  {
  }

  /** The options of the equipment-type select. */
  function EquipmentChoices(industry: string): seq<string> {
    if industry != "" && industry in EquipmentTypes then EquipmentTypes[industry] else []
  }

  /** The equipment-type select is disabled without an industry or without options for it. */
  predicate EquipmentSelectEnabled(industry: string) {
    industry != "" && industry in EquipmentTypes && |EquipmentTypes[industry]| > 0
  }

  /** The select is enabled exactly for the listed industries, and then offers four types. */
  lemma EquipmentSelectFollowsIndustries(industry: string)
    ensures EquipmentSelectEnabled(industry) <==> industry in Industries
    ensures industry in Industries ==> |EquipmentChoices(industry)| == 4
    ensures !EquipmentSelectEnabled(industry) ==> EquipmentChoices(industry) == []
  {
  }

  /** The deal-amount field: the parsed number, or 0 when the text is NaN.
      Integers have no negative zero, so this `isNaN ? 0 : value` guard and the
      wizard's `|| 0` store the same number. */
  function DealAmountFromInput(text: string): (r: int)
    ensures r == AmountFromInput(text)
    ensures ParseInt(text).None? ==> r == 0
  {
    match ParseInt(text)
    case None => 0
    case Some(v) => v
  }

  /** Typing the decimal form of an amount stores that amount. */
  lemma DealAmountRoundTrip(n: int)
    ensures DealAmountFromInput(IntString(n)) == n
  {
    AmountRoundTrip(n);
  }

  /** Text without a digit stores 0, which the payment summary shows as "0.00". */
  lemma DealAmountWithoutDigitsIsZero(text: string)
    requires forall i :: 0 <= i < |text| ==> !IsDigit(text[i])
    ensures ParseInt(text) == None
    ensures DealAmountFromInput(text) == 0
  {
    NonNumericAmountIsZero(text);
  }
}

=== FILE: subscriptions.dfy ===
/**
 The account's subscription record as the dashboard, the wizard and the trial
 banner see it.
 */
module Subscriptions {

  datatype Status = Trialing | Active | PastDue | Canceled | Unpaid

  datatype Tier = Starter | Pro | Premium

  /** The `trialEndsAt` string: absent or empty (falsy), a date string that does
      not parse (`new Date(..)` yields NaN), or an instant in epoch milliseconds. */
  datatype TrialEnd = NoTrial | UnparseableDate | EndsAt(ms: int)

  datatype Limits = Limits(leadsPerSearch: int, activeJobs: int, features: seq<string>)

  datatype Usage = Usage(activeJobs: int, searchesThisMonth: int, leadsThisMonth: int)

  datatype Subscription = Subscription(
    active: bool,
    status: Status,
    trialEndsAt: TrialEnd,
    tier: Tier,
    limits: Limits,
    usage: Usage,
    isAdmin: bool,
    customerEmail: string)

  /** `!!subscription.trialEndsAt`: any non-empty date string is truthy. */
  predicate HasTrial(s: Subscription) {
    !s.trialEndsAt.NoTrial?
  }

  /** The quota gate shared by the New Search button and the wizard's submit. */
  predicate AtJobLimit(s: Subscription) {
    s.usage.activeJobs >= s.limits.activeJobs
  }

  /** The tier as the backend spells it. */
  function TierName(t: Tier): string {
    match t
    case Starter => "starter"
    case Pro => "pro"
    case Premium => "premium"
  }
}

=== FILE: trial_banner.dfy ===
/**
 The trial banner: the hours-and-minutes countdown to the end of the trial and
 the rule that hides the banner. "Now" is a parameter (epoch milliseconds).
 */
module TrialBanner {
  import opened Common
  import opened NumericInput
  import opened Subscriptions

  const MsPerHour: int := 3600000
  const MsPerMinute: int := 60000

  datatype TimeLeft = Expired | Remaining(hours: nat, minutes: nat)

  /** Whole hours and leftover whole minutes until `trialEnd`, or `Expired`. */
  function Countdown(trialEnd: int, now: int): (t: TimeLeft)
    ensures trialEnd - now <= 0 <==> t == Expired
    ensures t.Remaining? ==> t.minutes < 60
    ensures t.Remaining? ==>
      t.hours * MsPerHour + t.minutes * MsPerMinute <= trialEnd - now
      < t.hours * MsPerHour + (t.minutes + 1) * MsPerMinute
  {
    var diff := trialEnd - now;
    if diff > 0 then Remaining(diff / MsPerHour, (diff % MsPerHour) / MsPerMinute) else Expired
  }

  /** Before the end, the countdown is the only split of the remaining time
      into hours and minutes below 60 that brackets it to the minute. */
  lemma CountdownUnique(trialEnd: int, now: int, h: nat, m: nat)
    requires trialEnd > now && m < 60
    requires h * MsPerHour + m * MsPerMinute <= trialEnd - now < h * MsPerHour + (m + 1) * MsPerMinute
    ensures Countdown(trialEnd, now) == Remaining(h, m)
  {
  }

  /** The countdown state for the subscription's trial end. `None` is the
      untouched empty label: without a trial the countdown never runs. An
      unparseable date gives a NaN difference, which is not positive. */
  function BannerCountdown(trialEnd: TrialEnd, now: int): (r: Option<TimeLeft>)
    ensures r.None? <==> trialEnd.NoTrial?
    ensures trialEnd.UnparseableDate? ==> r == Some(Expired)
    ensures trialEnd.EndsAt? ==> r == Some(Countdown(trialEnd.ms, now))
  {
    match trialEnd
    case NoTrial => None
    case UnparseableDate => Some(Expired)
    case EndsAt(ms) => Some(Countdown(ms, now))
  }

  /** The label after "Trial expires in". */
  function CountdownLabel(t: TimeLeft): string {
    match t
    case Expired => "Expired"
    case Remaining(h, m) => IntString(h) + "h " + IntString(m) + "m"
  }

  /** Proof step for `CountdownLabelReadsBack`: the hours. */
  lemma LabelHoursReadBack(h: nat, m: nat)
    ensures ParseInt(CountdownLabel(Remaining(h, m))) == Some(h)
  {
    var rest := "h " + IntString(m) + "m";
    assert CountdownLabel(Remaining(h, m)) == IntString(h) + rest;
    ParseIntOfIntString(h, rest);
  }

  /** Proof step for `CountdownLabelReadsBack`: the minutes. */
  lemma LabelMinutesReadBack(h: nat, m: nat)
    ensures CountdownLabel(Remaining(h, m))[|IntString(h)|..|IntString(h)| + 2] == "h "
    ensures ParseInt(CountdownLabel(Remaining(h, m))[|IntString(h)| + 2..]) == Some(m)
  {
    var text := CountdownLabel(Remaining(h, m));
    assert text == IntString(h) + "h " + (IntString(m) + "m");
    assert text[|IntString(h)| + 2..] == IntString(m) + "m";
    ParseIntOfIntString(m, "m");
  }

  /** The "{h}h {m}m" label carries both numbers: the text reads back as the
      hours, the text after "h " reads back as the minutes, and it ends in "m". */
  lemma CountdownLabelReadsBack(h: nat, m: nat)
    ensures ParseInt(CountdownLabel(Remaining(h, m))) == Some(h)
    ensures CountdownLabel(Remaining(h, m))[|IntString(h)|..|IntString(h)| + 2] == "h "
    ensures ParseInt(CountdownLabel(Remaining(h, m))[|IntString(h)| + 2..]) == Some(m)
    ensures CountdownLabel(Remaining(h, m))[|CountdownLabel(Remaining(h, m))| - 1] == 'm'
  {
    LabelHoursReadBack(h, m);
    LabelMinutesReadBack(h, m);
  }

  /** The banner renders unless there is no trial or its end is not after now.
      A NaN date compares false, so an unparseable date leaves it visible. */
  predicate BannerVisible(trialEnd: TrialEnd, now: int) {
    match trialEnd
    case NoTrial => false
    case UnparseableDate => true
    case EndsAt(ms) => ms > now
  }

  /** A visible banner over a real date never reads "Expired" at the same instant,
      and an unparseable date shows "Trial expires in Expired". */
  lemma VisibleBannerCountsDown(trialEnd: TrialEnd, now: int)
    requires BannerVisible(trialEnd, now)
    ensures trialEnd.EndsAt? ==> BannerCountdown(trialEnd, now).value.Remaining?
    ensures trialEnd.UnparseableDate? ==> CountdownLabel(BannerCountdown(trialEnd, now).value) == "Expired"
  {
  }
}

=== FILE: wizard.dfy ===
/**
 The four-step search wizard: industry, location, funding type, funding range.
 Each step has a validity rule; Back and Next move between steps; submitting
 checks the job quota, asks the backend to start a search and resets the form.
 */
module Wizard {
  import opened Common
  import opened NumericInput
  import opened Subscriptions

  datatype FundingRange = FundingRange(min: int, max: int)

  datatype SearchForm = SearchForm(
    industry: string,
    city: string,
    state: string,
    fundingType: string,
    funding: FundingRange)

  datatype WizardState = WizardState(step: int, form: SearchForm, submitting: bool)

  /** The two funding kinds the step-3 buttons offer. */
  datatype FundingKind = Equipment | WorkingCapital

  function FundingTypeName(k: FundingKind): string {
    match k
    case Equipment => "equipment"
    case WorkingCapital => "mca"
  }

  const InitialForm := SearchForm("", "", "", "equipment", FundingRange(10000, 50000))

  const InitialWizard := WizardState(1, InitialForm, false)

  /** Whether the user may leave `step` with the form as it stands. */
  predicate CanProceed(step: int, f: SearchForm) {
    if step == 1 then f.industry != ""
    else if step == 2 then f.city != "" && f.state != ""
    else if step == 3 then f.fundingType != ""
    else if step == 4 then f.funding.min > 0 && f.funding.max > f.funding.min
    else false
  }

  /** What the search backend receives is usable: every step's rule holds. */
  predicate CompleteRequest(f: SearchForm) {
    && f.industry != "" && f.city != "" && f.state != ""
    && f.fundingType != ""
    && 0 < f.funding.min < f.funding.max
  }

  /** The input controls; the amount fields carry the raw text typed by the user. */
  datatype Edit =
    | ChooseIndustry(industry: string)
    | EnterCity(city: string)
    | ChooseState(state: string)
    | ChooseFunding(kind: FundingKind)
    | EnterMin(minText: string)
    | EnterMax(maxText: string)

  /** The form field a control writes. */
  datatype Field = IndustryField | CityField | StateField | FundingTypeField | MinField | MaxField

  function Target(e: Edit): Field {
    match e
    case ChooseIndustry(_) => IndustryField
    case EnterCity(_) => CityField
    case ChooseState(_) => StateField
    case ChooseFunding(_) => FundingTypeField
    case EnterMin(_) => MinField
    case EnterMax(_) => MaxField
  }

  /** The step on whose screen a control is rendered. */
  function ControlStep(e: Edit): int {
    match e
    case ChooseIndustry(_) => 1
    case EnterCity(_) => 2
    case ChooseState(_) => 2
    case ChooseFunding(_) => 3
    case EnterMin(_) => 4
    case EnterMax(_) => 4
  }

  /** A control stores the chosen value, or the number typed, in its own field
      and leaves every other field as it was. */
  function ApplyEdit(f: SearchForm, e: Edit): (r: SearchForm)
    ensures e.ChooseIndustry? ==> r.industry == e.industry
    ensures e.EnterCity? ==> r.city == e.city
    ensures e.ChooseState? ==> r.state == e.state
    ensures e.ChooseFunding? ==> r.fundingType == (if e.kind == Equipment then "equipment" else "mca")
    ensures e.EnterMin? ==> r.funding.min == AmountFromInput(e.minText)
    ensures e.EnterMax? ==> r.funding.max == AmountFromInput(e.maxText)
    ensures Target(e) != IndustryField ==> r.industry == f.industry
    ensures Target(e) != CityField ==> r.city == f.city
    ensures Target(e) != StateField ==> r.state == f.state
    ensures Target(e) != FundingTypeField ==> r.fundingType == f.fundingType
    ensures Target(e) != MinField ==> r.funding.min == f.funding.min
    ensures Target(e) != MaxField ==> r.funding.max == f.funding.max
  {
    match e
    case ChooseIndustry(v) => f.(industry := v)
    case EnterCity(v) => f.(city := v)
    case ChooseState(v) => f.(state := v)
    case ChooseFunding(k) => f.(fundingType := FundingTypeName(k))
    case EnterMin(text) => f.(funding := f.funding.(min := AmountFromInput(text)))
    case EnterMax(text) => f.(funding := f.funding.(max := AmountFromInput(text)))
  }

  /** A control changes the form only while its step is on screen. */
  function EditField(w: WizardState, e: Edit): (r: WizardState)
    ensures r.step == w.step && r.submitting == w.submitting
    ensures forall k :: k != w.step ==> (CanProceed(k, r.form) <==> CanProceed(k, w.form))
    ensures ControlStep(e) != w.step ==> r == w
    ensures ControlStep(e) == w.step ==> r.form == ApplyEdit(w.form, e)
  {
    if ControlStep(e) == w.step then w.(form := ApplyEdit(w.form, e)) else w
  }

  /** Two uses of the same control: only the later value stays. */
  lemma LastEditWins(f: SearchForm, e1: Edit, e2: Edit)
    requires Target(e1) == Target(e2)
    ensures ApplyEdit(ApplyEdit(f, e1), e2) == ApplyEdit(f, e2)
  {
  }

  /** Controls that write different fields can be used in either order. */
  lemma EditsOnDifferentFieldsCommute(f: SearchForm, e1: Edit, e2: Edit)
    requires Target(e1) != Target(e2)
    ensures ApplyEdit(ApplyEdit(f, e1), e2) == ApplyEdit(ApplyEdit(f, e2), e1)
  {
  }

  /** The Back button. */
  function Back(w: WizardState): (r: WizardState)
    ensures r.step >= 1
    ensures w.step > 1 ==> r.step == w.step - 1
    ensures w.step <= 1 ==> r.step == 1
    ensures r.form == w.form && r.submitting == w.submitting
  {
    w.(step := if w.step - 1 > 1 then w.step - 1 else 1)
  }

  /** The Next button: shown only below step 4, enabled only when the step is valid. */
  function Next(w: WizardState): (r: WizardState)
    ensures r.form == w.form && r.submitting == w.submitting
    ensures r.step == w.step || r.step == w.step + 1
    ensures r.step == w.step + 1 <==> w.step < 4 && CanProceed(w.step, w.form)
    ensures 1 <= w.step <= 4 ==> 1 <= r.step <= 4
  {
    if w.step < 4 && CanProceed(w.step, w.form) then w.(step := w.step + 1) else w
  }

  /** Whether the Start Lead Search button is shown and enabled. */
  predicate SubmitEnabled(w: WizardState) {
    w.step >= 4 && CanProceed(w.step, w.form) && !w.submitting
  }

  /** The backend's answer to a start-search request. */
  datatype StartOutcome = Started(jobId: string) | StartFailed

  datatype SubmitAlert = JobLimitReached(limit: int) | StartFailedAlert

  datatype SubmitResult = SubmitResult(
    wizard: WizardState,
    request: Option<SearchForm>,
    createdJob: Option<string>,
    alert: Option<SubmitAlert>)

  /** Submitting: the quota gate comes first and sends nothing; otherwise the
      form goes to the backend, and only a started job resets the wizard. */
  function HandleSubmit(w: WizardState, sub: Subscription, outcome: StartOutcome): (r: SubmitResult)
    ensures AtJobLimit(sub) ==> r.request == None && r.createdJob == None && r.wizard == w
    ensures AtJobLimit(sub) ==> r.alert == Some(JobLimitReached(sub.limits.activeJobs))
    ensures !AtJobLimit(sub) ==> r.request == Some(w.form) && !r.wizard.submitting
    ensures r.createdJob.Some? <==> !AtJobLimit(sub) && outcome.Started?
    ensures r.createdJob.Some? ==> r.createdJob.value == outcome.jobId && r.wizard == InitialWizard && r.alert == None
    ensures !AtJobLimit(sub) && outcome.StartFailed? ==> r.wizard.step == w.step && r.wizard.form == w.form
    ensures !AtJobLimit(sub) && outcome.StartFailed? ==> r.alert == Some(StartFailedAlert)
  {
    if AtJobLimit(sub) then
      SubmitResult(w, None, None, Some(JobLimitReached(sub.limits.activeJobs)))
    else
      match outcome
      case Started(id) => SubmitResult(InitialWizard, Some(w.form), Some(id), None)
      case StartFailed => SubmitResult(w.(submitting := false), Some(w.form), None, Some(StartFailedAlert))
  }

  /** Everything the user can do on the wizard. */
  datatype Event = Input(e: Edit) | PressBack | PressNext | PressSubmit(outcome: StartOutcome)

  function Dispatch(w: WizardState, sub: Subscription, ev: Event): WizardState {
    match ev
    case Input(e) => EditField(w, e)
    case PressBack => Back(w)
    case PressNext => Next(w)
    case PressSubmit(o) => if SubmitEnabled(w) then HandleSubmit(w, sub, o).wizard else w
  }

  /** The states the wizard can reach: on a step from 1 to 4, idle, a funding
      type chosen by one of the buttons, and every earlier step still valid. */
  predicate Reachable(w: WizardState) {
    && 1 <= w.step <= 4
    && !w.submitting
    && (w.form.fundingType == "equipment" || w.form.fundingType == "mca")
    && forall k :: 1 <= k < w.step ==> CanProceed(k, w.form)
  }

  lemma InitialWizardReachable()
    ensures Reachable(InitialWizard)
    ensures CanProceed(4, InitialForm)
  {
  }

  /** Every user action keeps the wizard among the reachable states. */
  lemma DispatchKeepsReachable(w: WizardState, sub: Subscription, ev: Event)
    requires Reachable(w)
    ensures Reachable(Dispatch(w, sub, ev))
  {
  }

  /** A request can only leave the wizard complete: the submit button needs
      step 4 to be valid, and reachability keeps steps 1 to 3 valid. */
  lemma SubmittedRequestIsComplete(w: WizardState, sub: Subscription, o: StartOutcome)
    requires Reachable(w) && SubmitEnabled(w)
    ensures HandleSubmit(w, sub, o).request.Some? ==> CompleteRequest(HandleSubmit(w, sub, o).request.value)
  {
    assert CanProceed(1, w.form) && CanProceed(2, w.form) && CanProceed(3, w.form);
  }

  /** A minimum typed without any digit becomes 0, which step 4 rejects. */
  lemma NonNumericMinimumBlocksStep4(f: SearchForm, text: string)
    requires forall i :: 0 <= i < |text| ==> !IsDigit(text[i])
    ensures !CanProceed(4, ApplyEdit(f, EnterMin(text)))
  {
  }
}
